=== FILE: README.md ===
# parseObjectPascalToCamel, modelled in Dafny

After a successful PlayFab call, the SDK passes the `data` field of the
response body to `parseObjectPascalToCamel` (`src/utils.ts`). For the Google
login it first spreads that field into a new object together with an extra
`email` key. The function renames the keys of a string-keyed object from
PascalCase to camelCase before the object reaches the caller. It builds a fresh
object and walks the input's own keys in enumeration order. Each key is
renamed to its first character lower-cased followed by the rest of the key
unchanged. The value is stored under the new key as it is. The rename goes one
level deep only: values, nested objects and arrays included, are stored by
reference, not copied, and are never looked into.

The model has four modules:

- `Ascii` (`ascii.dfy`) defines the key rename `LowerFirst`. It covers
  `key.charAt(0).toLowerCase() + key.slice(1)` for ASCII letters, and the
  empty key stays empty.
- `JsObject` (`js_object.dfy`) defines a JavaScript object. It is an
  association list `seq<(string, V)>` with distinct keys, in enumeration
  order. The own-property read is `Get`, the guarded read of
  `src/utils.ts:8`, which gives `None` for `undefined`. Property
  assignment is `Assign`: an existing key keeps its position and takes the
  new value, and a new key goes at the end.
- `Utils` (`utils.dfy`) holds the transform. `PascalToCamel` is the
  functional definition, a left fold of `Assign` over the entries.
  `ParseObjectPascalToCamel` is the loop as the source writes it, proved equal
  to that fold. It takes each value from the entry being enumerated, and its
  body asserts that the guarded read of line 8, `Get`, gives that same value
  whenever the keys are distinct. The lemmas state the key-set image, last writer wins, verbatim
  values, the size bound, the empty case and idempotence.
- `Examples` (`examples.dfy`) holds worked instances over a JSON value type.

Values have an arbitrary type `V`, because the function never inspects them.
The result is a sequence, so the model also fixes the key order of the output
object. Because of that, idempotence is plain equality of the two results.

This revision of `parseObjectPascalToCamel` (`src/utils.ts:1-14`) renames one
level only; the model never recurses into values.

## Model

| member | source | states |
|---|---|---|
| Ascii.ToLowerChar | src/utils.ts:9 | `toLowerCase` on one character: the result is never an upper-case letter; an upper-case ASCII letter becomes its lower-case partner; any other character is unchanged |
| Ascii.LowerFirst | src/utils.ts:9 | the renamed key has the same length and the same characters after position 0; its first character is not upper-case, and an upper-case first letter becomes its lower-case partner |
| Ascii.LowerFirstFixedIff | src/utils.ts:9 | a key is left unchanged exactly when it is empty or does not start with an upper-case letter (camelCase, digit-led and empty keys) |
| Ascii.LowerFirstIdempotent | src/utils.ts:9 | renaming a renamed key changes nothing |
| Ascii.LowerFirstCollision | src/utils.ts:9-10 | two different keys rename to the same key exactly when they have the same non-zero length, the same characters after the first, and first characters that are the two cases of one letter |
| JsObject.KeysCardinality | src/utils.ts:6 | an object with distinct keys has as many own keys as entries |
| JsObject.Get | src/utils.ts:8 | the own-property read (the guarded read at line 8) gives `undefined` exactly when the key is not an own key, and otherwise the value stored under it |
| JsObject.Assign | src/utils.ts:10 | assigning a new key appends the entry at the end; assigning an existing key replaces that entry's value in place and leaves every other entry alone |
| JsObject.AssignKeys | src/utils.ts:10 | after an assignment the keys are the old keys plus the assigned one, still distinct, and the entry count grows by one exactly when the key was new |
| JsObject.AssignGet | src/utils.ts:10 | after `o[k] = v`, reading `k` gives `v` and reading any other key gives what it gave before |
| Utils.PascalToCamel | src/utils.ts:1-14 | the result has distinct keys, and its key set is exactly the image of the input's key set under the rename |
| Utils.ParseObjectPascalToCamel | src/utils.ts:1-14 | the loop starting from a fresh empty object yields the fold; its keys are distinct and are the image of the input keys, and each key holds the value of its last writer |
| Utils.EmptyIffEmpty | src/utils.ts:4-13 | the result is empty exactly when the input object is empty |
| Utils.ResultKeysCamel | src/utils.ts:9 | every result key is some input key with its first character lower-cased, so no result key starts with an upper-case letter |
| Utils.SizeBound | src/utils.ts:6-11 | the result never has more entries than the input |
| Utils.LastWriterWins | src/utils.ts:7-10 | the value under a result key is the value of the last input entry, in enumeration order, whose key renames to it |
| Utils.LookupAbsent | src/utils.ts:6-11 | a key is not an own key of the result, so its own-property read is undefined, exactly when no input key renames to it |
| Utils.EntriesFromInput | src/utils.ts:8-10 | every result entry pairs a renamed key with the untouched value of that key's last writer, so values are stored as they are |
| Utils.SizeIffInjective | src/utils.ts:6-11 | for an input with distinct keys, the result has as many entries as the input exactly when no two input keys rename to the same key |
| Utils.KeyCountIffInjective | src/utils.ts:6-11 | the result has at most as many keys as the input, and exactly as many when the rename is injective on the input's keys |
| Utils.CamelObjectFixed | src/utils.ts:9-10 | an object with distinct keys none of which starts with an upper-case letter is returned as it is, key order included |
| Utils.CamelObjectUnchanged | src/utils.ts:9-10 | an object is returned unchanged, key order included, exactly when none of its keys starts with an upper-case letter |
| Utils.Idempotent | src/utils.ts:1-14 | applying the transform to its own result gives the same result |
| Examples.NestedValueKept | src/utils.ts:8-10 | `{"UserName": "a", "Nested": {"PlayFabId": "1"}}` becomes `{"userName": "a", "nested": {"PlayFabId": "1"}}`: the nested object's keys are not renamed |
| Examples.OnlyFirstCharacter | src/utils.ts:9 | `{"ID": 5}` becomes `{"iD": 5}`: only position 0 changes |
| Examples.CollisionLaterWins | src/utils.ts:10 | `"Foo"` and `"foo"` collide into one `"foo"` key holding the later value, whichever of the two comes first |
| Examples.CollisionKeepsPosition | src/utils.ts:10 | `{"Foo": 1, "Bar": 2, "foo": 3}` becomes `{"foo": 3, "bar": 2}`: the collided key keeps its first writer's position and takes the last writer's value |
| Examples.UncasedKeysKept | src/utils.ts:9 | digit-led, camelCase and empty keys keep their names |

## Left out

- Ascii.ToLowerChar: changes ASCII letters only. JavaScript's `toLowerCase` follows the Unicode case tables, which can also change a string's length; that mapping is not modelled. Keys are also Dafny strings, sequences of Unicode scalar values, whereas a JavaScript key is a sequence of UTF-16 code units: a key holding a lone surrogate, which `JSON.parse` can produce, cannot be represented.
- Ascii.LowerFirst: inherits the ASCII-only restriction above, so a key starting with a non-ASCII upper-case letter is left unchanged in the model.
- JsObject.Assign: appends every new key at the end. JavaScript enumerates integer-like keys first, in ascending numeric order. Such keys have no letters, so they never collide, and the model keeps them in insertion order.
- JsObject.Assign: treats `"__proto__"` as an ordinary key. In JavaScript, `newObject["__proto__"] = value` at `src/utils.ts:10` calls the `Object.prototype` setter and creates no own key: a primitive other than `null` is ignored, and `null` or an object becomes the result's prototype. So an input with an own `"__proto__"` key, which `JSON.parse` can produce, gives a result without that key, while the model keeps it.
- JsObject.Get: models the guarded read at `src/utils.ts:8` for an ordinary object, where `Object.keys` yields own keys only and the `undefined` branch is never taken. An object with an own `hasOwnProperty` property is not modelled: a non-function value there, as in the JSON body `{"hasOwnProperty": 1}`, makes the call throw a TypeError, and a function value decides the branch itself.
- `Object.keys` at `src/utils.ts:6` throws a TypeError when given `null` or `undefined`, which the call sites can pass, since they forward `res.data.data` unchecked. The model takes an object as input and does not model that throw.
- Input immutability and freshness of the top-level result object (`src/utils.ts:4,10,13`) hold by construction: objects are immutable values in the model, so no member states them.
- Sharing of nested values is not modelled. `newObject[newKey] = value` at `src/utils.ts:10` stores the input's value by reference, so a nested object or array in the result is the very object found in the input, and mutating one mutates the other. The model's immutable values cannot express that sharing.
- `src/AptoPlay.ts` is not modelled. It sends HTTP requests through axios, builds a default username from the wall clock, and has trivial getters. The helpers it imports, `generateErrorObject` and `getGoogleProfileByAccessToken`, are not part of this model.
- `src/types.ts` only declares an error class and an interface and has no logic.
- Circular objects need no treatment: the rename never follows values, so cycles in them are never walked.

=== FILE: ascii.dfy ===
/**
 ASCII case mapping of the first character of a key, as performed by
 `key.charAt(0).toLowerCase() + key.slice(1)` restricted to ASCII letters.
 */
module Ascii {

  predicate IsUpper(c: char) {
    'A' <= c <= 'Z'
  }

  predicate IsLower(c: char) {
    'a' <= c <= 'z'
  }

  /** `toLowerCase` on one character: upper-case ASCII letters move to their
      lower-case partner, every other character is left alone. */
  function ToLowerChar(c: char): (r: char)
    ensures !IsUpper(r)
    ensures IsUpper(c) ==> IsLower(r) && r as int - c as int == 'a' as int - 'A' as int
    ensures !IsUpper(c) ==> r == c
  {
    if IsUpper(c) then (c as int - 'A' as int + 'a' as int) as char else c
  }

  /** The key rename: the first character lower-cased, the rest unchanged;
      the empty key stays empty. */
  function LowerFirst(s: string): (r: string)
    ensures |r| == |s|
    ensures forall i :: 1 <= i < |s| ==> r[i] == s[i]
    ensures |s| > 0 ==> !IsUpper(r[0])
    ensures |s| > 0 && IsUpper(s[0]) ==> IsLower(r[0]) && r[0] as int == s[0] as int + ('a' as int - 'A' as int)
  {
    if |s| == 0 then s else [ToLowerChar(s[0])] + s[1..]
  }

  /** A key is left as it is exactly when it does not start with an upper-case
      letter: camelCase keys, digit-led keys and the empty key. */
  lemma LowerFirstFixedIff(s: string)
    ensures LowerFirst(s) == s <==> (|s| == 0 || !IsUpper(s[0]))
  {
    if |s| > 0 && !IsUpper(s[0]) {
      assert LowerFirst(s) == [s[0]] + s[1..] == s;
    }
  }

  /** Renaming a renamed key changes nothing. */
  lemma LowerFirstIdempotent(s: string)
    ensures LowerFirst(LowerFirst(s)) == LowerFirst(s)
  {
    LowerFirstFixedIff(LowerFirst(s));
  }

  /** Two different keys are renamed to the same key exactly when they have the
      same length, agree after the first character, and their first characters
      are the two cases of one ASCII letter (as with "Foo" and "foo"). */
  lemma LowerFirstCollision(a: string, b: string)
    requires a != b
    ensures LowerFirst(a) == LowerFirst(b) <==>
              |a| == |b| > 0 && a[1..] == b[1..] && ToLowerChar(a[0]) == ToLowerChar(b[0])
  {
    if LowerFirst(a) == LowerFirst(b) {
      if |a| > 0 {
        assert a[1..] == LowerFirst(a)[1..] == LowerFirst(b)[1..] == b[1..];
        assert LowerFirst(a)[0] == LowerFirst(b)[0];
      }
    }
    if |a| == |b| > 0 && a[1..] == b[1..] && ToLowerChar(a[0]) == ToLowerChar(b[0]) {
      assert LowerFirst(a) == [ToLowerChar(a[0])] + a[1..] == [ToLowerChar(b[0])] + b[1..] == LowerFirst(b);
    }
  }
}

=== FILE: examples.dfy ===
/**
 Worked instances of the rename on JSON-like response bodies, with values
 drawn from a JSON value type so that nested objects can be shown to pass
 through untouched.
 */
module Examples {
  import opened Ascii
  import opened JsObject
  import opened Utils

  /** A JSON value as decoded from a response body. */
  datatype Json =
    | Null
    | Bool(b: bool)
    | Num(n: int)
    | Str(s: string)
    | Arr(items: seq<Json>)
    | Obj(entries: seq<(string, Json)>)

  /** A nested object under "Nested" is stored as it is under "nested", its
      own keys, here "PlayFabId", left as they are. */
  lemma NestedValueKept()
    ensures PascalToCamel([("UserName", Str("a")), ("Nested", Obj([("PlayFabId", Str("1"))]))])
         == [("userName", Str("a")), ("nested", Obj([("PlayFabId", Str("1"))]))]
  {
    var o := [("UserName", Str("a")), ("Nested", Obj([("PlayFabId", Str("1"))]))];
    assert o[..1] == [o[0]] && o[..1][..0] == [];
    assert LowerFirst("UserName") == "userName" by {
      assert ToLowerChar('U') == 'u';
      assert ['u'] + "UserName"[1..] == "userName";
    }
    assert LowerFirst("Nested") == "nested" by {
      assert ToLowerChar('N') == 'n';
      assert ['n'] + "Nested"[1..] == "nested";
    }
    var first := [("userName", Str("a"))];
    assert "nested" !in Keys(first) by {
      assert first[0].0 != "nested";
    }
  }

  /** Only the first character changes: "ID" becomes "iD". */
  lemma OnlyFirstCharacter()
    ensures PascalToCamel([("ID", Num(5))]) == [("iD", Num(5))]
  {
    var o := [("ID", Num(5))];
    assert o[..0] == [];
    assert LowerFirst("ID") == "iD" by {
      assert ToLowerChar('I') == 'i';
      assert ['i'] + "ID"[1..] == "iD";
    }
  }

  /** "Foo" and "foo" collide: the later entry's value wins and the result
      has one key fewer than the input. */
  lemma CollisionLaterWins()
    ensures PascalToCamel([("Foo", Num(1)), ("foo", Num(2))]) == [("foo", Num(2))]
    ensures PascalToCamel([("foo", Num(1)), ("Foo", Num(2))]) == [("foo", Num(2))]
  {
    assert LowerFirst("Foo") == "foo" by {
      assert ToLowerChar('F') == 'f';
      assert ['f'] + "Foo"[1..] == "foo";
    }
    assert LowerFirst("foo") == "foo" by {
      LowerFirstFixedIff("foo");
    }
    var a := [("Foo", Num(1)), ("foo", Num(2))];
    assert a[..1] == [a[0]] && a[..1][..0] == [];
    var b := [("foo", Num(1)), ("Foo", Num(2))];
    assert b[..1] == [b[0]] && b[..1][..0] == [];
    var one := [("foo", Num(1))];
    assert "foo" in Keys(one) by {
      assert one[0].0 == "foo";
    }
  }

  /** A colliding key keeps the position of its first writer: "foo" stays
      ahead of "bar" although its value comes from the last entry. */
  lemma CollisionKeepsPosition()
    ensures PascalToCamel([("Foo", Num(1)), ("Bar", Num(2)), ("foo", Num(3))])
         == [("foo", Num(3)), ("bar", Num(2))]
  {
    assert LowerFirst("Foo") == "foo" by {
      assert ToLowerChar('F') == 'f';
      assert ['f'] + "Foo"[1..] == "foo";
    }
    assert LowerFirst("Bar") == "bar" by {
      assert ToLowerChar('B') == 'b';
      assert ['b'] + "Bar"[1..] == "bar";
    }
    assert LowerFirst("foo") == "foo" by {
      LowerFirstFixedIff("foo");
    }
    var o := [("Foo", Num(1)), ("Bar", Num(2)), ("foo", Num(3))];
    var one := [("foo", Num(1))];
    var two := [("foo", Num(1)), ("bar", Num(2))];
    assert o[..1][..0] == [];
    PascalToCamelStep(o[..1]);
    assert PascalToCamel(o[..1]) == one;
    assert o[..2][..1] == o[..1];
    PascalToCamelStep(o[..2]);
    assert "bar" !in Keys(one) by {
      assert one[0].0 != "bar";
    }
    assert PascalToCamel(o[..2]) == two;
    assert o[..2] == o[..|o| - 1];
    PascalToCamelStep(o);
    assert "foo" in Keys(two) by {
      assert two[0].0 == "foo";
    }
    assert Assign(two, "foo", Num(3))[0] == ("foo", Num(3));
    assert Assign(two, "foo", Num(3))[1] == ("bar", Num(2));
  }

  /** Digit-led, already camelCase and empty keys keep their names. */
  lemma UncasedKeysKept()
    ensures PascalToCamel([("1st", Null), ("camel", Bool(true)), ("", Arr([]))])
         == [("1st", Null), ("camel", Bool(true)), ("", Arr([]))]
  {
    var o := [("1st", Null), ("camel", Bool(true)), ("", Arr([]))];
    LowerFirstFixedIff("1st");
    LowerFirstFixedIff("camel");
    LowerFirstFixedIff("");
    assert DistinctKeys(o);
    CamelObjectUnchanged(o);
  }
}

=== FILE: js_object.dfy ===
/**
 A plain JavaScript object with string keys, seen through its own enumerable
 properties: an association list in enumeration (insertion) order, in which
 every key occurs at most once. Values are of an arbitrary type `V`; nothing
 here looks inside them.
 */
module JsObject {

  type Object<V> = seq<(string, V)>

  /** The outcome of an own-property read; `None` is `undefined`. */
  datatype Option<+T> = None | Some(value: T)

  /** The own keys of the object, as `Object.keys` returns them, as a set. */
  function Keys<V>(o: Object<V>): set<string> {
    set i | 0 <= i < |o| :: o[i].0
  }

  /** Each key names one property only. */
  predicate DistinctKeys<V>(o: Object<V>) {
    forall i, j :: 0 <= i < j < |o| ==> o[i].0 != o[j].0
  }

  lemma KeysOfEmpty<V>(o: Object<V>)
    requires |o| == 0
    ensures Keys(o) == {}
  {
  }

  /** The keys of a non-empty object are those of its first entry and its tail. */
  lemma KeysCons<V>(o: Object<V>)
    requires |o| > 0
    ensures Keys(o) == {o[0].0} + Keys(o[1..])
  {
    forall k | k in Keys(o) ensures k in {o[0].0} + Keys(o[1..]) {
      var i :| 0 <= i < |o| && o[i].0 == k;
      if i > 0 {
        assert o[1..][i - 1].0 == k;
      }
    }
    forall k | k in Keys(o[1..]) ensures k in Keys(o) {
      var i :| 0 <= i < |o[1..]| && o[1..][i].0 == k;
      assert o[i + 1].0 == k;
    }
  }

  /** The keys of a non-empty object are those of its last entry and its front. */
  lemma KeysSnoc<V>(o: Object<V>)
    requires |o| > 0
    ensures Keys(o) == Keys(o[..|o| - 1]) + {o[|o| - 1].0}
  {
    var p := o[..|o| - 1];
    forall k | k in Keys(o) ensures k in Keys(p) + {o[|o| - 1].0} {
      var i :| 0 <= i < |o| && o[i].0 == k;
      if i < |o| - 1 {
        assert p[i].0 == k;
      }
    }
    forall k | k in Keys(p) ensures k in Keys(o) {
      var i :| 0 <= i < |p| && p[i].0 == k;
      assert o[i].0 == k;
    }
  }

  /** With distinct keys, the object has as many keys as entries. */
  lemma {:induction false} KeysCardinality<V>(o: Object<V>)
    requires DistinctKeys(o)
    ensures |Keys(o)| == |o|
    decreases |o|
  {
    if |o| == 0 {
      KeysOfEmpty(o);
    } else {
      var p := o[..|o| - 1];
      assert DistinctKeys(p);
      KeysCardinality(p);
      KeysSnoc(o);
      assert forall i :: 0 <= i < |p| ==> p[i].0 != o[|o| - 1].0;
    }
  }

  /** Own-property read, the guarded read `o.hasOwnProperty(k) ? o[k] : undefined`:
      the value stored under `k`, or `None` when `k` is not an own key.
      Unlike a plain `o[k]`, it never reaches inherited members such as
      `toString`. */
  function Get<V>(o: Object<V>, k: string): (r: Option<V>)
    ensures r.None? <==> k !in Keys(o)
    ensures DistinctKeys(o) ==> forall i :: 0 <= i < |o| && o[i].0 == k ==> r == Some(o[i].1)
    decreases |o|
  {
    if |o| == 0 then None
    else
      KeysCons(o);
      if o[0].0 == k then Some(o[0].1) else Get(o[1..], k)
  }

  /** Property assignment `o[k] = v`: an existing key keeps its position and
      takes the new value; a new key is appended at the end of the
      enumeration order. */
  function Assign<V>(o: Object<V>, k: string, v: V): (r: Object<V>)
    requires DistinctKeys(o)
    ensures k !in Keys(o) ==> r == o + [(k, v)]
    ensures k in Keys(o) ==> |r| == |o| && forall i :: 0 <= i < |o| ==> r[i] == (if o[i].0 == k then (k, v) else o[i])
    decreases |o|
  {
    if |o| == 0 then
      [(k, v)]
    else
      KeysCons(o);
      if o[0].0 == k then [(k, v)] + o[1..] else [o[0]] + Assign(o[1..], k, v)
  }

  /** After `o[k] = v` the object has the keys it had plus `k`, still each once. */
  lemma AssignKeys<V>(o: Object<V>, k: string, v: V)
    requires DistinctKeys(o)
    ensures DistinctKeys(Assign(o, k, v))
    ensures Keys(Assign(o, k, v)) == Keys(o) + {k}
    ensures |Assign(o, k, v)| == if k in Keys(o) then |o| else |o| + 1
  {
    var r := Assign(o, k, v);
    if k !in Keys(o) {
      KeysSnoc(r);
      assert r[..|r| - 1] == o;
    } else {
      forall x | x in Keys(r) ensures x in Keys(o) + {k} {
        var i :| 0 <= i < |r| && r[i].0 == x;
        assert o[i].0 == x || x == k;
      }
      forall x | x in Keys(o) + {k} ensures x in Keys(r) {
        if x in Keys(o) {
          var i :| 0 <= i < |o| && o[i].0 == x;
          assert r[i].0 == x;
        }
      }
    }
  }

  /** Assigning the last entry onto the entries before it, when its key is
      not among theirs, rebuilds the whole object. */
  lemma AssignFreshKey<V>(o: Object<V>)
    requires |o| > 0
    requires DistinctKeys(o[..|o| - 1])
    requires o[|o| - 1].0 !in Keys(o[..|o| - 1])
    ensures Assign(o[..|o| - 1], o[|o| - 1].0, o[|o| - 1].1) == o
  {
    assert o[..|o| - 1] + [o[|o| - 1]] == o;
  }

  /** After `o[k] = v`, reading `k` gives `v` and reading any other key gives
      what it gave before. */
  lemma AssignGet<V>(o: Object<V>, k: string, v: V, k': string)
    requires DistinctKeys(o)
    ensures Get(Assign(o, k, v), k) == Some(v)
    ensures k' != k ==> Get(Assign(o, k, v), k') == Get(o, k')
  {
    var r := Assign(o, k, v);
    AssignKeys(o, k, v);
    assert r[|r| - 1] == (k, v) || exists i :: 0 <= i < |o| && o[i].0 == k && r[i] == (k, v);
    if k' != k && k' in Keys(o) {
      var i :| 0 <= i < |o| && o[i].0 == k';
      assert r[i] == o[i];
    }
  }
}

=== FILE: utils.dfy ===
/**
 `parseObjectPascalToCamel`: a one-level key rename of a string-keyed object.
 The own keys are walked in enumeration order; each key has its first
 character lower-cased and its value is stored, as it is, under the new key
 of a freshly built object. Values are never looked into, so nested objects
 keep their inner keys. When two keys rename to the same key, the later one
 in enumeration order overwrites the value of the earlier one, which keeps
 its position.
 */
module Utils {
  import opened Ascii
  import opened JsObject

  /** The image of the input's key set under the rename. */
  function KeyImage<V>(o: Object<V>): set<string> {
    set k | k in Keys(o) :: LowerFirst(k)
  }

  /** Entry `i` is the last one, in enumeration order, whose key renames to `k`. */
  ghost predicate IsLastWriter<V>(o: Object<V>, k: string, i: int) {
    && 0 <= i < |o|
    && LowerFirst(o[i].0) == k
    && forall j :: i < j < |o| ==> LowerFirst(o[j].0) != k
  }

  /** Every key already starts with something other than an upper-case letter. */
  ghost predicate CamelKeys<V>(o: Object<V>) {
    forall i :: 0 <= i < |o| ==> LowerFirst(o[i].0) == o[i].0
  }

  /** No two entries rename to the same key. */
  ghost predicate RenameInjective<V>(o: Object<V>) {
    forall a, b :: a in Keys(o) && b in Keys(o) && a != b ==> LowerFirst(a) != LowerFirst(b)
  }

  lemma KeyImageSnoc<V>(o: Object<V>)
    requires |o| > 0
    ensures KeyImage(o) == KeyImage(o[..|o| - 1]) + {LowerFirst(o[|o| - 1].0)}
  {
    KeysSnoc(o);
  }

  /** The functional definition: a left fold of property assignments over the
      entries in enumeration order, starting from the empty object. */
  function PascalToCamel<V>(o: Object<V>): (r: Object<V>)
    ensures DistinctKeys(r)
    ensures Keys(r) == KeyImage(o)
    decreases |o|
  {
    if |o| == 0 then
      KeysOfEmpty(o);
      []
    else
      var p := o[..|o| - 1];
      var (key, value) := o[|o| - 1];
      var acc := PascalToCamel(p);
      KeyImageSnoc(o);
      AssignKeys(acc, LowerFirst(key), value);
      Assign(acc, LowerFirst(key), value)
  }

  /** One step of the fold: the last entry is assigned into the result of
      the others. It states no new property; it keeps that unfolding step in
      a proof of its own, so that the proofs using it stay small. */
  lemma PascalToCamelStep<V>(o: Object<V>)
    requires |o| > 0
    ensures PascalToCamel(o) == Assign(PascalToCamel(o[..|o| - 1]), LowerFirst(o[|o| - 1].0), o[|o| - 1].1)
  {
  }

  /** An empty object gives an empty result, and only an empty object does. */
  lemma EmptyIffEmpty<V>(o: Object<V>)
    ensures PascalToCamel(o) == [] <==> |o| == 0
  {
    if |o| > 0 {
      assert o[0].0 in Keys(o);
      assert LowerFirst(o[0].0) in Keys(PascalToCamel(o));
    }
  }

  /** The key of result entry `i` is the rename of an input key: the first
      clause of `ResultKeysCamel` for one entry, kept in a proof of its own
      so that the proof of `ResultKeysCamel` stays small. */
  lemma ResultKeyOrigin<V>(o: Object<V>, i: int)
    requires 0 <= i < |PascalToCamel(o)|
    ensures exists k :: k in Keys(o) && PascalToCamel(o)[i].0 == LowerFirst(k)
  {
    var r := PascalToCamel(o);
    assert r[i].0 in Keys(r);
  }

  /** Every key of the result is some input key with its first character
      lower-cased, and so is already camelCase: renaming it again changes nothing. */
  lemma ResultKeysCamel<V>(o: Object<V>)
    ensures forall i :: 0 <= i < |PascalToCamel(o)| ==>
              exists k :: k in Keys(o) && PascalToCamel(o)[i].0 == LowerFirst(k)
    ensures CamelKeys(PascalToCamel(o))
  {
    var r := PascalToCamel(o);
    forall i | 0 <= i < |r|
      ensures exists k :: k in Keys(o) && r[i].0 == LowerFirst(k)
      ensures LowerFirst(r[i].0) == r[i].0
    {
      ResultKeyOrigin(o, i);
      var k :| k in Keys(o) && r[i].0 == LowerFirst(k);
      LowerFirstIdempotent(k);
    }
  }

  /** The result never has more entries than the input. */
  lemma {:induction false} SizeBound<V>(o: Object<V>)
    ensures |PascalToCamel(o)| <= |o|
    decreases |o|
  {
    if |o| > 0 {
      var p := o[..|o| - 1];
      SizeBound(p);
      AssignKeys(PascalToCamel(p), LowerFirst(o[|o| - 1].0), o[|o| - 1].1);
    }
  }

  /** The value stored under a result key is the value of the LAST input
      entry, in enumeration order, whose key renames to it. */
  lemma {:induction false} LastWriterWins<V>(o: Object<V>, k: string, i: int)
    requires IsLastWriter(o, k, i)
    ensures Get(PascalToCamel(o), k) == Some(o[i].1)
    decreases |o|
  {
    var p := o[..|o| - 1];
    var (key, value) := o[|o| - 1];
    AssignGet(PascalToCamel(p), LowerFirst(key), value, k);
    if i < |o| - 1 {
      assert IsLastWriter(p, k, i);
      LastWriterWins(p, k, i);
    }
  }

  /** A key that no input key renames to is absent from the result. */
  lemma LookupAbsent<V>(o: Object<V>, k: string)
    ensures Get(PascalToCamel(o), k) == None <==> forall i :: 0 <= i < |o| ==> LowerFirst(o[i].0) != k
  {
    if Get(PascalToCamel(o), k) != None {
      var a :| a in Keys(o) && LowerFirst(a) == k;
      var i :| 0 <= i < |o| && o[i].0 == a;
    }
  }

  /** The last entry below position `hi` whose key renames to `k`, given one
      such entry at `m`. */
  ghost function LastWriterBelow<V>(o: Object<V>, k: string, m: int, hi: int): (i: int)
    requires 0 <= m < hi <= |o| && LowerFirst(o[m].0) == k
    ensures m <= i < hi && LowerFirst(o[i].0) == k
    ensures forall j :: i < j < hi ==> LowerFirst(o[j].0) != k
    decreases hi
  {
    if LowerFirst(o[hi - 1].0) == k then hi - 1 else LastWriterBelow(o, k, m, hi - 1)
  }

  /** Result entry `i` holds the untouched value of its key's last writer. */
  lemma EntryFromInput<V>(o: Object<V>, i: int)
    requires 0 <= i < |PascalToCamel(o)|
    ensures exists j :: IsLastWriter(o, PascalToCamel(o)[i].0, j) && PascalToCamel(o)[i].1 == o[j].1
  {
    var r := PascalToCamel(o);
    var k := r[i].0;
    ResultKeyOrigin(o, i);
    var a :| a in Keys(o) && k == LowerFirst(a);
    var m :| 0 <= m < |o| && o[m].0 == a;
    var j := LastWriterBelow(o, k, m, |o|);
    assert IsLastWriter(o, k, j);
    LastWriterWins(o, k, j);
    assert Get(r, k) == Some(r[i].1);
  }

  /** Values are stored as they are: each result entry pairs a renamed key with
      the untouched value of that key's last writer. */
  lemma EntriesFromInput<V>(o: Object<V>)
    ensures forall i :: 0 <= i < |PascalToCamel(o)| ==>
              exists j :: IsLastWriter(o, PascalToCamel(o)[i].0, j) && PascalToCamel(o)[i].1 == o[j].1
  {
    var r := PascalToCamel(o);
    forall i | 0 <= i < |r|
      ensures exists j :: IsLastWriter(o, r[i].0, j) && r[i].1 == o[j].1
    {
      EntryFromInput(o, i);
    }
  }

  /** For an object with distinct keys, the rename is injective on the whole
      object exactly when it is injective on all but the last entry and the
      last entry's new key is not taken by an earlier one. */
  lemma RenameInjectiveSnoc<V>(o: Object<V>)
    requires DistinctKeys(o)
    requires |o| > 0
    ensures RenameInjective(o) <==>
              RenameInjective(o[..|o| - 1]) && LowerFirst(o[|o| - 1].0) !in KeyImage(o[..|o| - 1])
  {
    var p := o[..|o| - 1];
    var last := o[|o| - 1].0;
    KeysSnoc(o);
    assert last !in Keys(p) by {
      assert forall i :: 0 <= i < |p| ==> p[i].0 != last;
    }
    if RenameInjective(o) {
      forall a | a in Keys(p) ensures LowerFirst(a) != LowerFirst(last) {
        assert a != last;
      }
    }
  }

  /** With distinct input keys, the result has as many entries as the input
      exactly when no two input keys rename to the same key. */
  lemma {:induction false} SizeIffInjective<V>(o: Object<V>)
    requires DistinctKeys(o)
    ensures |PascalToCamel(o)| == |o| <==> RenameInjective(o)
    decreases |o|
  {
    if |o| > 0 {
      var p := o[..|o| - 1];
      assert DistinctKeys(p);
      SizeIffInjective(p);
      SizeBound(p);
      RenameInjectiveSnoc(o);
      AssignKeys(PascalToCamel(p), LowerFirst(o[|o| - 1].0), o[|o| - 1].1);
    }
  }

  /** The same count, stated on key sets: the result has at most as many keys
      as the input, and exactly as many when the rename is injective on them. */
  lemma KeyCountIffInjective<V>(o: Object<V>)
    requires DistinctKeys(o)
    ensures |Keys(PascalToCamel(o))| <= |Keys(o)|
    ensures |Keys(PascalToCamel(o))| == |Keys(o)| <==> RenameInjective(o)
  {
    KeysCardinality(o);
    KeysCardinality(PascalToCamel(o));
    SizeBound(o);
    SizeIffInjective(o);
  }

  /** An object with distinct keys none of which starts with an upper-case
      letter is returned as it is, order included. */
  lemma {:induction false} CamelObjectFixed<V>(o: Object<V>)
    requires DistinctKeys(o)
    requires CamelKeys(o)
    ensures PascalToCamel(o) == o
    decreases |o|
  {
    if |o| > 0 {
      CamelPrefix(o);
      CamelObjectFixed(o[..|o| - 1]);
      AppendCamelKey(o);
    }
  }

  /** Appending an entry whose key is camelCase and new to a fixed point of
      the fold gives another fixed point. */
  lemma AppendCamelKey<V>(o: Object<V>)
    requires |o| > 0
    requires DistinctKeys(o[..|o| - 1])
    requires PascalToCamel(o[..|o| - 1]) == o[..|o| - 1]
    requires LowerFirst(o[|o| - 1].0) == o[|o| - 1].0
    requires o[|o| - 1].0 !in Keys(o[..|o| - 1])
    ensures PascalToCamel(o) == o
  {
    PascalToCamelStep(o);
    AssignFreshKey(o);
  }

  /** Dropping the last entry keeps keys distinct and camelCase, and the last
      key is not among the others. */
  lemma CamelPrefix<V>(o: Object<V>)
    requires DistinctKeys(o)
    requires CamelKeys(o)
    requires |o| > 0
    ensures DistinctKeys(o[..|o| - 1]) && CamelKeys(o[..|o| - 1])
    ensures LowerFirst(o[|o| - 1].0) == o[|o| - 1].0
    ensures o[|o| - 1].0 !in Keys(o[..|o| - 1])
  {
    var p := o[..|o| - 1];
    assert forall t :: 0 <= t < |p| ==> p[t] == o[t];
    assert forall t :: 0 <= t < |p| ==> p[t].0 != o[|o| - 1].0;
  }

  /** An object with distinct keys is left exactly as it is, order included,
      when every key is already camelCase, and only then. */
  lemma CamelObjectUnchanged<V>(o: Object<V>)
    requires DistinctKeys(o)
    ensures PascalToCamel(o) == o <==> CamelKeys(o)
  {
    ResultKeysCamel(o);
    if CamelKeys(o) {
      CamelObjectFixed(o);
    }
  }

  /** Idempotence: a second pass over the result renames nothing. */
  lemma Idempotent<V>(o: Object<V>)
    ensures PascalToCamel(PascalToCamel(o)) == PascalToCamel(o)
  {
    ResultKeysCamel(o);
    CamelObjectUnchanged(PascalToCamel(o));
  }

  /** The loop as written: start from a fresh empty object, walk the own keys
      in enumeration order, and assign each value under its renamed key.
      The input is a value and is never changed. */
  method ParseObjectPascalToCamel<V>(obj: Object<V>) returns (newObject: Object<V>)
    ensures DistinctKeys(newObject)
    ensures Keys(newObject) == KeyImage(obj)
    ensures forall k, i :: IsLastWriter(obj, k, i) ==> Get(newObject, k) == Some(obj[i].1)
    ensures newObject == PascalToCamel(obj)
  {
    newObject := [];
    var n := 0;
    while n < |obj|
      invariant 0 <= n <= |obj|
      invariant newObject == PascalToCamel(obj[..n])
    {
      var (key, value) := obj[n];
      // the guarded own-property read of the key just enumerated
      assert DistinctKeys(obj) ==> Get(obj, key) == Some(value);
      var newKey := LowerFirst(key);
      assert obj[..n + 1][..n] == obj[..n];
      newObject := Assign(newObject, newKey, value);
      n := n + 1;
    }
    assert obj[..n] == obj;
    forall k, i | IsLastWriter(obj, k, i)
      ensures Get(newObject, k) == Some(obj[i].1)
    {
      LastWriterWins(obj, k, i);
    }
  }
}
